=== FILE: README.md ===
# FileManager: a Dafny model of the browser's decision logic

FileManager is a small iOS file browser. It lists the app's sandboxed
documents directory, creates folders, imports images from the photo library,
deletes items and opens sub-folders. A password screen gates it, with optional
Face ID / Touch ID unlock. This project models the parts of it that make
decisions, as immutable datatypes and pure functions (with a few methods
where the platform hands back an unordered directory listing). It proves what
the code promises about them.

- `Keychain` (`keychain.dfy`) models the keychain wrapper: a map from keys to
  strings in which only `"password"` is read or written.
- `PasswordGate` (`password_gate.dfy`) models the password screen as a record
  `Gate(keychain, pending, loggedIn, field)` with a pure `Tap` transition. The
  mode (create a password, or sign in) is derived from the keychain on every
  tap. The process-wide `isLoggedIn` flag is the `loggedIn` field.
- `LocalAuth` (`local_auth.dfy`) maps the outcome of a biometric evaluation to
  the message given to the completion. It also maps the platform's biometry
  kind to the app's own three kinds.
- `FileTree` (`file_tree.dfy`) models the file service over an abstract
  filesystem. The filesystem is a `map<Path, Node>`, a `Path` is the sequence of
  components below the sandbox root, and a `Node` is a file or a directory with
  its size attribute. Listing, folder creation, file import, removal and
  folder size are modelled here.
- `Preferences` (`preferences.dfy`) models the user defaults: the two flags
  `"sorting"` and `"fileSize"`, both false until written.
- `Documents` (`documents.dfy`) models one directory screen. It covers sorting
  by last path component, the optimistic row delete, directory-only
  navigation, the size text of a row, the login gate check, and the
  reload-and-sort after each change.
- `Settings` (`settings.dfy`) models the settings table: switch rows and static
  rows, the `configure` layout, and row selection, where "Change Password"
  removes the password.
- `Options` (`options.dfy`) and `NameOrder` (`name_order.dfy`) are helpers. They
  provide optional values and the lexicographic order on names, with its
  total-order lemmas.

The platform's collaborators are parameters or plain state, never called.
Foundation's file manager is the filesystem map. The keychain is `Keychain.Store`.
`LAContext` becomes two inputs: whether the policy can be evaluated, and what
the evaluation reported. `UserDefaults` is the `Defaults` record.

## Behaviour worth knowing

- The minimum length of 4 also applies to the confirmation entry. A short
  confirmation gets the "Invalid Password" alert, not the mismatch alert.
- Nothing in the password screen, the browser or the settings screen calls
  `authorizeIfPossible`. The model keeps only its message mapping and never
  sets the logged-in flag from it.
- `removeContent` removes a directory together with everything below it, as
  `removeItem` does.
- `sizeOfFolder` counts hidden children, because it lists with
  `contentsOfDirectory(atPath:)`, which does not skip them. The row listing
  does skip them.
- An unreadable folder shows the string "Zero KB", not a number.
- An item whose attributes cannot be read shows no detail text and cannot be
  opened, even when it is a directory. Inside a folder's size it counts 0.
- "Change Password" leaves the process-wide logged-in flag set. Only the
  keychain entry is removed before the password screen is shown again.

## Model

| member | source | states |
|---|---|---|
| Keychain.Stored | FileManager/Auth/KeychainService.swift:24 | reading the keychain yields a value exactly when the "password" key is present, and that value is the one stored |
| Keychain.HasPassword | FileManager/Auth/KeychainService.swift:23-29 | `data()` is true exactly when a password is stored |
| Keychain.SetPassword | FileManager/Auth/KeychainService.swift:31-33 | after setting, the stored password is the new one; every other key is untouched |
| Keychain.CheckPassword | FileManager/Auth/KeychainService.swift:35-41 | true exactly when the stored value equals the input, comparing code points; always false with nothing stored |
| Keychain.RemovePassword | FileManager/Auth/KeychainService.swift:43-45 | afterwards no password is stored; every other key is untouched |
| Keychain.SetThenCheck | FileManager/Auth/KeychainService.swift:31-41 | after `setPassword(p)`, `data()` is true and `checkPassword(x)` holds exactly for x = p |
| Keychain.SetOverwrites | FileManager/Auth/KeychainService.swift:31-41 | setting b after a (a ≠ b) makes a fail the check and b pass it |
| Keychain.RemoveThenCheck | FileManager/Auth/KeychainService.swift:35-45 | after `removePassword()` no input passes `checkPassword` |
| Keychain.RemoveUndoesSet | FileManager/Auth/KeychainService.swift:31-45 | setting then removing a password leaves a password-less keychain exactly as it was |
| PasswordGate.ModeOf | FileManager/Auth/PasswordViewController.swift:25-31 | the mode is sign-in exactly when the keychain holds a password, otherwise create-password |
| PasswordGate.Fresh | FileManager/Auth/PasswordViewController.swift:33 | a new password screen has nothing pending and an empty field |
| PasswordGate.Tap | FileManager/Auth/PasswordViewController.swift:146-188 | in create mode a short or missing entry, first entries and confirmations included, only clears the field and alerts "Invalid Password"; a first valid entry becomes pending with the field cleared and nothing stored; a matching confirmation stores it and logs in, changing nothing else (the pending entry, the field and the other keychain items stay), where matching means equal code points; a mismatch only clears the field and alerts. In sign-in mode the screen is dismissed exactly when the input equals the stored password, and a correct one changes nothing but the flag; a wrong one only clears the field, a nil field is ignored, and the keychain and pending entry never change. The logged-in flag is raised exactly on dismissal and never lowered |
| PasswordGate.DismissedMeansStored | FileManager/Auth/PasswordViewController.swift:164-167 | a tap that logs in leaves the keychain holding exactly the typed text |
| PasswordGate.RunKeepsStrongStore | FileManager/Auth/PasswordViewController.swift:150-167 | over any sequence of entries, every stored or pending password is at least 4 characters long |
| PasswordGate.WrongEntriesNeverSignIn | FileManager/Auth/PasswordViewController.swift:175-186 | in sign-in mode, no sequence of wrong entries logs in or touches the keychain |
| PasswordGate.CreateThenSignIn | FileManager/Auth/PasswordViewController.swift:146-188 | entering a valid password twice on an empty keychain stores it and logs in; a later screen signs in with exactly that password |
| PasswordGate.FirstLaunchScenario | FileManager/Auth/PasswordViewController.swift:150-174 | "abc" is rejected; "abcd" becomes pending; "abcd" again logs in, while "wxyz" gets the mismatch alert and "ab" the invalid alert, with pending kept |
| PasswordGate.SignInScenario | FileManager/Auth/PasswordViewController.swift:175-186 | with "abcd" stored, "abcd" signs in; "xxxx" and the short "abc" get the wrong-password alert |
| LocalAuth.AuthorizeIfPossible | FileManager/Auth/LocalAuthorizationService.swift:53-89 | the completion runs exactly once. When the policy cannot be evaluated, no evaluation starts and the value is "Face ID/Touch ID is not available". Otherwise the value is nil exactly on success, and a failure delivers the failure message of its error code |
| LocalAuth.ErrorOfMessage | FileManager/Auth/LocalAuthorizationService.swift:69-81 | only the six recognised codes are read back from a message |
| LocalAuth.FailureMessage | FileManager/Auth/LocalAuthorizationService.swift:67-84 | each of the six recognised codes gets its own message, from which the code is read back; an absent or unrecognised error gets "Face ID/Touch ID may not be configured"; no failure message equals the "not available" guard message |
| LocalAuth.BiometricTypeOf | FileManager/Auth/LocalAuthorizationService.swift:39-51 | none, Touch ID and Face ID map to themselves, and any unknown kind maps to none |
| LocalAuth.BiometricTypeRoundTrip | FileManager/Auth/LocalAuthorizationService.swift:39-51 | each of the app's three kinds survives the trip to the platform's kind and back, and each known platform kind survives the trip the other way |
| NameOrder.Less | FileManager/Docs/DocumentsViewController.swift:92-94 | the `<` on names used by both sort closures: nothing sorts before the empty name, the empty name sorts before every other name, a proper prefix sorts first, and the first characters never go the wrong way (with the lemmas, a strict total order) |
| FileTree.LastComponent | FileManager/Docs/FileManagerService.swift:49 | `lastPathComponent`: the path's final component, so the path is its parent plus that name; "" for the root. It is the sort key, the title of an opened screen and the name of an imported file |
| FileTree.IsHidden | FileManager/Docs/FileManagerService.swift:26 | the items `.skipsHiddenFiles` skips: exactly the names starting with '.', and never the root |
| FileTree.Append | FileManager/Docs/FileManagerService.swift:37 | appending a non-empty name gives a direct child with that name; an empty name leaves the path |
| FileTree.SizeOf | FileManager/Docs/FileManagerService.swift:68-75 | a child's size is its size attribute, or 0 when its attributes cannot be read or have no size |
| FileTree.ContentsOfDirectory | FileManager/Docs/FileManagerService.swift:20-33 | lists each visible direct child exactly once and nothing else; returns an empty list when the directory cannot be read |
| FileTree.SizeOfFolder | FileManager/Docs/FileManagerService.swift:64-83 | the sum of the size attributes of the direct children (hidden included, nothing deeper); a child whose attributes cannot be read, or carry no size, counts 0, and an empty folder gives 0; an unreadable folder gives "Zero KB" |
| FileTree.TotalSizeRemove | FileManager/Docs/FileManagerService.swift:68-76 | the folder total does not depend on the order the children are visited |
| FileTree.TotalSizeDependsOnItemsOnly | FileManager/Docs/FileManagerService.swift:68-76 | two filesystems that agree on the children's sizes give the same folder size, so nothing below the children matters |
| FileTree.ChildCounted | FileManager/Docs/FileManagerService.swift:72 | each child's size is included in its folder's size |
| FileTree.CreateDirectory | FileManager/Docs/FileManagerService.swift:35-46 | creates exactly `currentDirectory/name` as a directory, leaving every other item as it was. When the parent is not a directory or the name is taken, nothing changes |
| FileTree.CreateFile | FileManager/Docs/FileManagerService.swift:48-52 | writes a file named after the source's last path component, replacing a file already there; every other item is unchanged |
| FileTree.RemoveContent | FileManager/Docs/FileManagerService.swift:55-62 | afterwards the target is gone along with everything below it, every item outside its subtree is kept unchanged, and nothing is added. A missing target changes nothing |
| FileTree.RemoveIgnoresCurrentDirectory | FileManager/Docs/FileManagerService.swift:55-62 | the removal's effect does not depend on the directory it is issued from |
| FileTree.CreateDirectoryKeepsWellFormed | FileManager/Docs/FileManagerService.swift:35-46 | folder creation keeps every item inside an existing directory |
| FileTree.CreateFileKeepsWellFormed | FileManager/Docs/FileManagerService.swift:48-52 | file import keeps every item inside an existing directory |
| FileTree.RemoveContentKeepsWellFormed | FileManager/Docs/FileManagerService.swift:55-62 | removal leaves no orphaned item |
| FileTree.RemovedNotListed | FileManager/Docs/FileManagerService.swift:20-33 | after a removal, no listing of the directory contains the removed item |
| Documents.Insert | FileManager/Docs/DocumentsViewController.swift:92-94 | inserting into an ordered listing keeps it ordered and adds exactly that row |
| Documents.SortFiles | FileManager/Docs/DocumentsViewController.swift:90-95 | the rows are a permutation of the input, ordered by last path component ascending when the flag is on and descending when it is off |
| Documents.ViewWillAppear | FileManager/Docs/DocumentsViewController.swift:72-75 | on appearing, the rows are re-sorted according to the "sorting" default |
| Documents.PresentsPasswordGate | FileManager/Docs/DocumentsViewController.swift:79-88 | the password screen is presented exactly when nobody is logged in |
| Documents.DismissalLiftsGate | FileManager/Docs/DocumentsViewController.swift:79-88 | after a tap that dismisses the password screen, the gate is no longer presented |
| Documents.WrongEntriesKeepGate | FileManager/Docs/DocumentsViewController.swift:79-88 | on the sign-in screen, any run of wrong entries leaves the gate presented |
| Documents.ViewDidLoad | FileManager/Docs/DocumentsViewController.swift:59-70 | loading checks the gate and fills the rows with the directory listing |
| Documents.RemoveAt | FileManager/Docs/DocumentsViewController.swift:242 | removes exactly row i and keeps the others in order |
| Documents.CommitDelete | FileManager/Docs/DocumentsViewController.swift:238-252 | the row leaves the screen whatever happens on disk, and the same item, with its subtree, leaves the filesystem |
| Documents.Open | FileManager/Docs/DocumentsViewController.swift:220-236 | selecting a row opens a new screen, rooted at that item and titled with its name, exactly when the item is a directory whose attributes can be read |
| Documents.OpenMovesDown | FileManager/Docs/DocumentsViewController.swift:220-236 | a screen opened from a listed row is rooted at a direct child of the parent's directory, and everything it lists lies strictly below the parent's directory |
| Documents.SizeDetail | FileManager/Docs/DocumentsViewController.swift:190-216 | a directory always shows its folder size; a file shows its size only when "fileSize" is on; an item whose attributes cannot be read shows nothing |
| Documents.Reload | FileManager/Docs/DocumentsViewController.swift:156-157 | after a change the rows are the directory's listing, sorted by the "sorting" default |
| Documents.AddFolder | FileManager/Docs/DocumentsViewController.swift:150-159 | "Add" creates the folder, then the rows are reloaded from the directory and sorted |
| Documents.ImportImage | FileManager/Docs/DocumentsViewController.swift:259-272 | a picked image is written into the directory, then the rows are reloaded and sorted |
| Documents.SortAscendingExample | FileManager/Docs/DocumentsViewController.swift:92 | ["b", "a", "c"] sorts to a, b, c with the flag on |
| Documents.SortDescendingExample | FileManager/Docs/DocumentsViewController.swift:94 | ["b", "a", "c"] sorts to c, b, a with the flag off |
| Preferences.BoolForKey | FileManager/SettingsViewController/SettingsViewController.swift:71-77 | reads back the flag stored under "sorting" or "fileSize", and false for any other key |
| Settings.Configure | FileManager/SettingsViewController/SettingsViewController.swift:79-112 | appends "Appearance", with two switch rows each showing its stored default, then "Security", with the one "Change Password" row |
| Settings.TableShape | FileManager/SettingsViewController/SettingsViewController.swift:124-130 | the number of sections is the number of models, and each section has as many rows as options |
| Settings.RunHandler | FileManager/SettingsViewController/SettingsViewController.swift:104-110 | "Change Password" runs once, removes the password and presents a fresh password screen in create mode |
| Settings.DidSelectRow | FileManager/SettingsViewController/SettingsViewController.swift:158-167 | a switch row changes nothing; a static row runs its handler exactly once, with that handler's full effect |
| Settings.ConfiguredShape | FileManager/SettingsViewController/SettingsViewController.swift:79-130 | the loaded table has two sections, of two rows and one row |
| Settings.ChangePasswordRestartsCreation | FileManager/SettingsViewController/SettingsViewController.swift:104-110 | after "Change Password" the old password no longer signs in, and the screen shown is in create mode, where a new password entered twice is stored |

## Left out

- The UIKit work is not modelled: layout, table cells, alerts, modal presentation, navigation pushes and reloading the table.
  Only the state they leave and the alert titles are kept.
- The asynchronous hop in `authorizeIfPossible` is not modelled.
  The model gives the one completion value the main queue eventually receives.
- `canEvaluatePolicy` is an input, because it is a query to `LAContext`.
- `SwitchTableViewCell` is not part of this model. `SwitchAction` only names the two actions; that they write the two defaults is read off the selector names at `SettingsViewController.swift:85` and `:93`, not from the cell's code.
- `SettingsTableViewCell` is not modelled, because it is frame layout and styling only.
- `AppDelegate` and `SceneDelegate` are not modelled, because they are window set-up plus the platform lookup of the documents directory.
- The older `FileManager/DocumentsViewController.swift` and `FileManager/FileManagerService.swift` are not modelled.
  They are superseded variants that declare the same types as the `Docs/` versions.
- The model ignores how `ByteCountFormatter` formats the size text.
  Sizes stay byte counts, and `ZeroKB` is the fixed fallback string. (The formatter also writes a zero count as "Zero KB", so an empty folder and an unreadable one look the same on screen.)
- JPEG encoding is not modelled. `ImportImage` and `CreateFile` take the encoded length.
  A failed encoding writes an empty file, which is length 0.
- Documents.Open: assumes the percent-encoded path parses as a URL. If it does not, the source opens nothing.
  The new screen's root is `URL(string:)` of the percent-encoded path, a URL without the `file` scheme; the model takes that root as the directory's own path.
  If the platform's URL-based `contentsOfDirectory(at:)` refuses a scheme-less URL, every nested screen would list nothing, which the model does not show.
- Documents.SizeDetail: assumes `URL(string:)` parses the file's path. If it does not, the source leaves the detail empty.
- FileTree.IsHidden: covers only names starting with '.'. Items hidden by a file-system flag, which `.skipsHiddenFiles` also skips, are not modelled.
- Path components are assumed to contain no "/" and to be neither "." nor "..".
  The empty name is modelled: it appends nothing.
- Swift's `String.count` counts grapheme clusters, and `<` compares strings after Unicode normalisation.
  The model counts characters and compares code points.
- Keychain.CheckPassword: compares code points. Swift's `==` on strings (`KeychainService.swift:36`) is canonical equivalence, so a differently encoded but equivalent password ("café" with U+00E9 against "e" + U+0301) passes there and fails here.
- PasswordGate.Tap: the confirmation compare (`PasswordViewController.swift:164`) and the sign-in check go through the same `==`. Swift stores and logs in for a canonically equivalent but differently encoded confirmation, while the model gives the mismatch alert.
- `sorted(by:)` is not required to be stable, and the model's insertion order for rows with equal names is one possible outcome.
  The model proves only what holds for every such outcome: a permutation ordered by name.
- FileTree.SizeOfFolder: the `Int64` total would trap on overflow. The model's total is unbounded.
- Platform failures the model does not track are left out: write permissions, a full disk, and removals the platform refuses.
  `readable` covers only whether a directory can be listed.
- FileTree.CreateDirectory: a new directory's own size attribute is not modelled. It is readable attributes without a size, so it counts 0 in its parent's size.
- The directory listing order is whatever the platform gives.
  `ContentsOfDirectory` picks one arbitrarily; every property is stated for every order.

=== FILE: documents.dfy ===
/**
 * The directory browser: one screen per directory, holding the directory's
 * listing as the rows of a table.
 */
module Documents {
  import opened Options
  import opened FileTree
  import NameOrder
  import Preferences
  import PasswordGate
  import Keychain

  /** One screen: the directory it shows, its title and its rows. */
  datatype Browser = Browser(root: Path, title: string, files: seq<Path>)

  /** What deleting a row leaves: the screen and the filesystem. */
  datatype Deleted = Deleted(browser: Browser, fs: FileSystem)

  /** `a` goes strictly before `b` in the listing under the "sorting" flag's direction. */
  predicate Precedes(ascending: bool, a: Path, b: Path) {
    if ascending then NameOrder.Less(LastComponent(a), LastComponent(b))
    else NameOrder.Less(LastComponent(b), LastComponent(a))
  }

  /** No row goes strictly before an earlier one: what `sorted(by:)` guarantees. */
  ghost predicate SortedBy(ascending: bool, files: seq<Path>) {
    forall i, j :: 0 <= i < j < |files| ==> !Precedes(ascending, files[j], files[i])
  }

  lemma PrecedesAsymmetric(ascending: bool, a: Path, b: Path)
    requires Precedes(ascending, a, b)
    ensures !Precedes(ascending, b, a)
  {
    if ascending {
      NameOrder.LessAsymmetric(LastComponent(a), LastComponent(b));
    } else {
      NameOrder.LessAsymmetric(LastComponent(b), LastComponent(a));
    }
  }

  lemma PrecedesSplit(ascending: bool, a: Path, b: Path, c: Path)
    requires Precedes(ascending, a, c)
    ensures Precedes(ascending, a, b) || Precedes(ascending, b, c)
  {
    if ascending {
      NameOrder.LessSplit(LastComponent(a), LastComponent(b), LastComponent(c));
    } else {
      NameOrder.LessSplit(LastComponent(c), LastComponent(b), LastComponent(a));
    }
  }

  /** Places `x` into an ordered listing after every row that goes before it. */
  function Insert(ascending: bool, x: Path, files: seq<Path>): (r: seq<Path>)
    requires SortedBy(ascending, files)
    ensures multiset(r) == multiset(files) + multiset{x}
    ensures SortedBy(ascending, r)
    decreases |files|
  {
    if files == [] then [x]
    else if Precedes(ascending, files[0], x) then
      var rest := Insert(ascending, x, files[1..]);
      assert files == [files[0]] + files[1..];
      InsertHead(ascending, files[0], x, files[1..], rest);
      [files[0]] + rest
    else
      InsertFront(ascending, x, files);
      [x] + files
  }

  /** Consing `head` onto an ordered `rest` stays ordered when nothing in it goes before `head`. */
  lemma InsertHead(ascending: bool, head: Path, x: Path, tail: seq<Path>, rest: seq<Path>)
    requires SortedBy(ascending, [head] + tail)
    requires Precedes(ascending, head, x)
    requires SortedBy(ascending, rest)
    requires multiset(rest) == multiset(tail) + multiset{x}
    ensures SortedBy(ascending, [head] + rest)
  {
    var r := [head] + rest;
    forall i, j | 0 <= i < j < |r|
      ensures !Precedes(ascending, r[j], r[i])
    {
      if i == 0 {
        var y := rest[j - 1];
        assert r[i] == head && r[j] == y;
        assert y in multiset(rest);
        if y == x {
          PrecedesAsymmetric(ascending, head, x);
        } else {
          assert y in multiset(tail);
          var k :| 0 <= k < |tail| && tail[k] == y;
          var s := [head] + tail;
          assert s[0] == head && s[k + 1] == y;
          assert !Precedes(ascending, s[k + 1], s[0]);
        }
      } else {
        assert r[i] == rest[i - 1] && r[j] == rest[j - 1];
      }
    }
  }

  /** Putting `x` first is ordered when `x` does not go after the current first row. */
  lemma InsertFront(ascending: bool, x: Path, files: seq<Path>)
    requires SortedBy(ascending, files)
    requires files != [] && !Precedes(ascending, files[0], x)
    ensures SortedBy(ascending, [x] + files)
  {
    var r := [x] + files;
    forall i, j | 0 <= i < j < |r|
      ensures !Precedes(ascending, r[j], r[i])
    {
      if i == 0 && j > 1 && Precedes(ascending, r[j], x) {
        PrecedesSplit(ascending, r[j], files[0], x);
        assert false;
      }
    }
  }

  /**
   * `sortFiles`: orders the rows by last path component, ascending when
   * "sorting" is on and descending otherwise; nothing is added or lost.
   */
  function SortFiles(files: seq<Path>, ascending: bool): (r: seq<Path>)
    ensures multiset(r) == multiset(files)
    ensures SortedBy(ascending, r)
    decreases |files|
  {
    if files == [] then []
    else
      assert files == [files[0]] + files[1..];
      Insert(ascending, files[0], SortFiles(files[1..], ascending))
  }

  /** The rows as they appear: sorted by the current "sorting" flag. */
  function ViewWillAppear(b: Browser, d: Preferences.Defaults): (r: Browser)
    ensures r.root == b.root && r.title == b.title
    ensures multiset(r.files) == multiset(b.files)
    ensures SortedBy(Preferences.BoolForKey(d, Preferences.SortingKey), r.files)
  {
    b.(files := SortFiles(b.files, Preferences.BoolForKey(d, Preferences.SortingKey)))
  }

  /** The password screen is presented exactly when nobody is logged in. */
  function PresentsPasswordGate(isLoggedIn: bool): (r: bool)
    ensures r != isLoggedIn
  {
    if isLoggedIn then false else true
  }

  /** A tap that dismisses the password screen stops the gate from being presented again. */
  lemma DismissalLiftsGate(g: PasswordGate.Gate)
    requires PasswordGate.Tap(g).response == PasswordGate.Dismissed
    ensures !PresentsPasswordGate(PasswordGate.Tap(g).gate.loggedIn)
  {
  }

  /** Wrong entries on the sign-in screen leave the gate presented. */
  lemma WrongEntriesKeepGate(g: PasswordGate.Gate, inputs: seq<Option<string>>)
    requires PasswordGate.ModeOf(g.keychain) == PasswordGate.SignIn && !g.loggedIn
    requires forall i :: 0 <= i < |inputs| ==> inputs[i] != Keychain.Stored(g.keychain)
    ensures PresentsPasswordGate(PasswordGate.Run(g, inputs).loggedIn)
  {
    PasswordGate.WrongEntriesNeverSignIn(g, inputs);
  }

  /** A new screen for `root`, loaded: the gate decision, then the unsorted listing. */
  method ViewDidLoad(fs: FileSystem, root: Path, title: string, isLoggedIn: bool)
    returns (b: Browser, presentsGate: bool)
    ensures presentsGate <==> !isLoggedIn
    ensures b.root == root && b.title == title
    ensures IsListingOf(fs, root, b.files)
  {
    presentsGate := PresentsPasswordGate(isLoggedIn);
    var files := ContentsOfDirectory(fs, root);
    b := Browser(root, title, files);
  }

  /** Removes row `i`, keeping the others in order. */
  function RemoveAt(files: seq<Path>, i: nat): (r: seq<Path>)
    requires i < |files|
    ensures |r| == |files| - 1
    ensures r[..i] == files[..i] && r[i..] == files[i + 1..]
    ensures multiset(r) + multiset{files[i]} == multiset(files)
  {
    assert files == files[..i] + [files[i]] + files[i + 1..];
    files[..i] + files[i + 1..]
  }

  /**
   * Committing a delete on row `i`: the row leaves the screen first and
   * unconditionally; then the item is removed from the filesystem, which may
   * fail without the row coming back.
   */
  function CommitDelete(b: Browser, fs: FileSystem, i: nat): (r: Deleted)
    requires i < |b.files|
    ensures r.browser == b.(files := RemoveAt(b.files, i))
    ensures multiset(r.browser.files) + multiset{b.files[i]} == multiset(b.files)
    ensures r.fs == RemoveContent(fs, b.root, b.files[i])
    ensures b.files[i] !in r.fs
  {
    var url := b.files[i];
    var files := RemoveAt(b.files, i);
    Deleted(b.(files := files), RemoveContent(fs, b.root, url))
  }

  /** The item's attributes can be read (`attributesOfItem` does not throw). */
  predicate HasAttributes(fs: FileSystem, entry: Path) {
    entry in fs && fs[entry].attributes.Readable?
  }

  /**
   * Selecting row `i`: a directory whose attributes can be read opens a new
   * screen rooted at it, titled with its name and with no rows until it
   * loads; anything else opens nothing.
   */
  function Open(fs: FileSystem, b: Browser, i: nat): (r: Option<Browser>)
    requires i < |b.files|
    ensures r.Some? <==> IsDirectory(fs, b.files[i]) && HasAttributes(fs, b.files[i])
    ensures r.Some? ==> r.value == Browser(b.files[i], LastComponent(b.files[i]), [])
  {
    var entry := b.files[i];
    if HasAttributes(fs, entry) && IsDirectory(fs, entry) then Some(Browser(entry, LastComponent(entry), [])) else None
  }

  /**
   * Navigation only moves down: a screen opened from a row of a listing is
   * rooted at a direct child of the parent's directory, and everything it can
   * list lies two levels below the parent's directory.
   */
  lemma OpenMovesDown(fs: FileSystem, b: Browser, i: nat, listing: seq<Path>)
    requires i < |b.files| && b.files[i] in VisibleChildren(fs, b.root)
    requires Open(fs, b, i).Some?
    requires IsListingOf(fs, Open(fs, b, i).value.root, listing)
    ensures IsChild(b.root, Open(fs, b, i).value.root)
    ensures forall p :: p in listing ==> |p| == |b.root| + 2 && b.root < p
  {
    var child := Open(fs, b, i).value.root;
    forall p | p in listing
      ensures |p| == |b.root| + 2 && b.root < p
    {
      assert p in multiset(listing);
      assert p in VisibleChildren(fs, child);
      assert p[..|b.root|] == child[..|b.root|] == b.root;
    }
  }

  /**
   * The detail text of a row: a directory shows its folder size whatever the
   * flags say; a file shows its size only when "fileSize" is on; an item whose
   * attributes cannot be read shows nothing.
   */
  method SizeDetail(fs: FileSystem, entry: Path, d: Preferences.Defaults) returns (r: Option<SizeText>)
    ensures !HasAttributes(fs, entry) ==> r == None
    ensures HasAttributes(fs, entry) && IsDirectory(fs, entry) ==>
              r.Some? && (r.value == ZeroKB <==> !CanList(fs, entry))
    ensures HasAttributes(fs, entry) && IsDirectory(fs, entry) && CanList(fs, entry) ==>
              r == Some(ByteCount(TotalSize(fs, Children(fs, entry))))
    ensures HasAttributes(fs, entry) && fs[entry].File? ==>
              r == if Preferences.BoolForKey(d, Preferences.FileSizeKey)
                   then Some(ByteCount(SizeOf(fs[entry].attributes))) else None
  {
    if !HasAttributes(fs, entry) {
      return None;
    }
    match fs[entry]
    case Dir(_, _) =>
      var folderSize := SizeOfFolder(fs, entry);
      r := Some(folderSize);
    case File(attributes) =>
      r := if Preferences.BoolForKey(d, Preferences.FileSizeKey) then Some(ByteCount(SizeOf(attributes))) else None;
  }

  /** Reloads the rows from the screen's directory and sorts them. */
  method Reload(b: Browser, fs: FileSystem, d: Preferences.Defaults) returns (r: Browser)
    ensures r.root == b.root && r.title == b.title
    ensures IsListingOf(fs, b.root, r.files)
    ensures SortedBy(Preferences.BoolForKey(d, Preferences.SortingKey), r.files)
  {
    var files := ContentsOfDirectory(fs, b.root);
    r := ViewWillAppear(b.(files := files), d);
  }

  /** "Add Folder": creates the folder in the screen's directory, then reloads and sorts. */
  method AddFolder(b: Browser, fs: FileSystem, name: string, d: Preferences.Defaults)
    returns (r: Browser, fs': FileSystem)
    ensures fs' == CreateDirectory(fs, b.root, name)
    ensures r.root == b.root && r.title == b.title
    ensures IsListingOf(fs', b.root, r.files)
    ensures SortedBy(Preferences.BoolForKey(d, Preferences.SortingKey), r.files)
  {
    fs' := CreateDirectory(fs, b.root, name);
    r := Reload(b, fs', d);
  }

  /** Importing a picked image: written into the screen's directory, then reloaded and sorted. */
  method ImportImage(b: Browser, fs: FileSystem, imageUrl: Path, length: nat, d: Preferences.Defaults)
    returns (r: Browser, fs': FileSystem)
    ensures fs' == CreateFile(fs, b.root, imageUrl, length)
    ensures r.root == b.root && r.title == b.title
    ensures IsListingOf(fs', b.root, r.files)
    ensures SortedBy(Preferences.BoolForKey(d, Preferences.SortingKey), r.files)
  {
    fs' := CreateFile(fs, b.root, imageUrl, length);
    r := Reload(b, fs', d);
  }

  /** Sorting ["b", "a", "c"] with "sorting" on gives a, b, c. */
  lemma SortAscendingExample()
    ensures SortFiles([["b"], ["a"], ["c"]], true) == [["a"], ["b"], ["c"]]
  {
    var a, b, c: Path := ["a"], ["b"], ["c"];
    SingleLetterOrder();
    assert [b, a, c][1..] == [a, c] && [a, c][1..] == [c];
    assert SortFiles([c], true) == [c];
    assert Insert(true, a, [c]) == [a, c];
    assert SortFiles([a, c], true) == [a, c];
    assert Insert(true, b, [c]) == [b, c];
    assert Insert(true, b, [a, c]) == [a, b, c];
  }

  /** Sorting ["b", "a", "c"] with "sorting" off gives c, b, a. */
  lemma SortDescendingExample()
    ensures SortFiles([["b"], ["a"], ["c"]], false) == [["c"], ["b"], ["a"]]
  {
    var a, b, c: Path := ["a"], ["b"], ["c"];
    SingleLetterOrder();
    assert [b, a, c][1..] == [a, c] && [a, c][1..] == [c];
    assert SortFiles([c], false) == [c];
    assert Insert(false, a, []) == [a];
    assert Insert(false, a, [c]) == [c, a];
    assert SortFiles([a, c], false) == [c, a];
    assert Insert(false, b, [a]) == [b, a];
    assert Insert(false, b, [c, a]) == [c, b, a];
  }

  lemma SingleLetterOrder()
    ensures NameOrder.Less("a", "b") && NameOrder.Less("a", "c") && NameOrder.Less("b", "c")
    ensures !NameOrder.Less("b", "a") && !NameOrder.Less("c", "a") && !NameOrder.Less("c", "b")
  {
  }
}

=== FILE: file_tree.dfy ===
/**
 * The file service over an abstract filesystem. A path is the sequence of its
 * components below the sandbox root; the filesystem maps each existing path to
 * a file or a directory.
 */
module FileTree {
  import opened Options

  type Path = seq<string>

  /**
   * What `attributesOfItem` gives for an item: nothing when the call fails,
   * otherwise the attributes, whose size entry may be missing.
   */
  datatype Attributes = Unreadable | Readable(size: Option<nat>)

  /**
   * An item with its attributes. A directory's size attribute is the size of
   * the directory item itself, not of its contents. A directory whose
   * contents cannot be read fails to list.
   */
  datatype Node = File(attributes: Attributes) | Dir(attributes: Attributes, readable: bool)

  type FileSystem = map<Path, Node>

  /** The display string of `sizeOfFolder`: a byte count, or the fixed fallback "Zero KB". */
  datatype SizeText = ByteCount(bytes: nat) | ZeroKB

  /** `lastPathComponent` ("" for the root). */
  function LastComponent(p: Path): (r: string)
    ensures p == [] ==> r == ""
    ensures p != [] ==> p == p[..|p| - 1] + [r]
  {
    if p == [] then "" else p[|p| - 1]
  }

  /** `appendingPathComponent`: an empty name leaves the path as it is. */
  function Append(dir: Path, name: string): (r: Path)
    ensures name == "" ==> r == dir
    ensures name != "" ==> IsChild(dir, r) && LastComponent(r) == name
  {
    if name == "" then dir else dir + [name]
  }

  predicate IsChild(dir: Path, p: Path) {
    |p| == |dir| + 1 && p[..|dir|] == dir
  }

  /** Hidden items are those whose name starts with a dot. */
  function IsHidden(p: Path): (h: bool)
    ensures h ==> p != [] && |LastComponent(p)| > 0 && LastComponent(p)[..1] == "."
    ensures p != [] && |LastComponent(p)| > 0 && LastComponent(p)[..1] == "." ==> h
  {
    var name := LastComponent(p);
    |name| > 0 && name[0] == '.'
  }

  predicate IsDirectory(fs: FileSystem, p: Path) {
    p in fs && fs[p].Dir?
  }

  predicate CanList(fs: FileSystem, dir: Path) {
    IsDirectory(fs, dir) && fs[dir].readable
  }

  /** Every item other than the root sits in an existing directory. */
  ghost predicate WellFormed(fs: FileSystem) {
    forall p | p in fs && p != [] :: IsDirectory(fs, p[..|p| - 1])
  }

  /** All direct children of `dir`, hidden ones included. */
  function Children(fs: FileSystem, dir: Path): (r: set<Path>)
    ensures forall p :: p in r <==> p in fs && IsChild(dir, p)
  {
    set p | p in fs.Keys && IsChild(dir, p)
  }

  /** The direct children a listing that skips hidden items shows. */
  function VisibleChildren(fs: FileSystem, dir: Path): (r: set<Path>)
    ensures forall p :: p in r <==> p in fs && IsChild(dir, p) && !IsHidden(p)
  {
    set p | p in fs.Keys && IsChild(dir, p) && !IsHidden(p)
  }

  /** `r` is what `contentsOfDirectory` may return for `dir`, in some order. */
  ghost predicate IsListingOf(fs: FileSystem, dir: Path, r: seq<Path>) {
    if CanList(fs, dir) then multiset(r) == multiset(VisibleChildren(fs, dir)) else r == []
  }

  /**
   * `contentsOfDirectory`: the visible direct children, each once, in the
   * order the platform happens to give; empty when the directory cannot be
   * read.
   */
  method ContentsOfDirectory(fs: FileSystem, dir: Path) returns (r: seq<Path>)
    ensures IsListingOf(fs, dir, r)
    ensures forall p :: p in r <==> CanList(fs, dir) && p in fs && IsChild(dir, p) && !IsHidden(p)
  {
    r := [];
    if !CanList(fs, dir) {
      return;
    }
    var all := VisibleChildren(fs, dir);
    var pending := all;
    while pending != {}
      invariant pending <= all
      invariant multiset(r) == multiset(all - pending)
      decreases pending
    {
      var p :| p in pending;
      assert all - (pending - {p}) == (all - pending) + {p};
      r := r + [p];
      pending := pending - {p};
    }
    assert all - pending == all;
    forall p
      ensures p in r <==> p in all
    {
      assert p in r <==> p in multiset(r);
    }
  }

  /** The size an attributes value reports, 0 when the call failed or there is no size entry. */
  function SizeOf(a: Attributes): (n: nat)
    ensures a.Readable? && a.size.Some? ==> n == a.size.value
    ensures a.Unreadable? || a.size.None? ==> n == 0
  {
    match a
    case Readable(Some(bytes)) => bytes
    case _ => 0
  }

  /** What one child adds to its folder's size. */
  function Contribution(fs: FileSystem, p: Path): nat {
    if p in fs then SizeOf(fs[p].attributes) else 0
  }

  /** The sum of the contributions of a set of items. */
  ghost function TotalSize(fs: FileSystem, items: set<Path>): nat
    decreases items
  {
    if items == {} then 0 else var p :| p in items; Contribution(fs, p) + TotalSize(fs, items - {p})
  }

  /** The total does not depend on which item is taken first. */
  lemma {:induction false} TotalSizeRemove(fs: FileSystem, items: set<Path>, x: Path)
    requires x in items
    ensures TotalSize(fs, items) == Contribution(fs, x) + TotalSize(fs, items - {x})
    decreases items
  {
    var y :| y in items && TotalSize(fs, items) == Contribution(fs, y) + TotalSize(fs, items - {y});
    if y != x {
      TotalSizeRemove(fs, items - {y}, x);
      TotalSizeRemove(fs, items - {x}, y);
      assert items - {y} - {x} == items - {x} - {y};
    }
  }

  /**
   * `sizeOfFolder`: the sum of the size attributes of the folder's direct
   * children (hidden ones too, nothing deeper); children whose attributes
   * cannot be read or carry no size count 0. An unreadable folder gives the
   * fallback text.
   */
  method SizeOfFolder(fs: FileSystem, folder: Path) returns (r: SizeText)
    ensures !CanList(fs, folder) ==> r == ZeroKB
    ensures CanList(fs, folder) ==> r == ByteCount(TotalSize(fs, Children(fs, folder)))
    ensures CanList(fs, folder) && Children(fs, folder) == {} ==> r == ByteCount(0)
  {
    if !CanList(fs, folder) {
      return ZeroKB;
    }
    var all := Children(fs, folder);
    var pending := all;
    var total := 0;
    while pending != {}
      invariant pending <= all
      invariant total + TotalSize(fs, pending) == TotalSize(fs, all)
      decreases pending
    {
      var p :| p in pending;
      TotalSizeRemove(fs, pending, p);
      total := total + Contribution(fs, p);
      pending := pending - {p};
    }
    r := ByteCount(total);
  }

  /** Only the direct children matter: two filesystems that agree on them give the same folder size. */
  lemma {:induction false} TotalSizeDependsOnItemsOnly(fs1: FileSystem, fs2: FileSystem, items: set<Path>)
    requires forall p :: p in items ==> Contribution(fs1, p) == Contribution(fs2, p)
    ensures TotalSize(fs1, items) == TotalSize(fs2, items)
    decreases items
  {
    if items != {} {
      var p :| p in items;
      TotalSizeRemove(fs1, items, p);
      TotalSizeRemove(fs2, items, p);
      TotalSizeDependsOnItemsOnly(fs1, fs2, items - {p});
    }
  }

  /** Each child's size is part of its folder's size. */
  lemma ChildCounted(fs: FileSystem, folder: Path, child: Path)
    requires child in Children(fs, folder)
    ensures Contribution(fs, child) <= TotalSize(fs, Children(fs, folder))
  {
    TotalSizeRemove(fs, Children(fs, folder), child);
  }

  /**
   * `createDirectory`: makes `dir/name` without intermediate directories.
   * When the parent is not a directory or the name is taken, the error is
   * only logged and the filesystem is unchanged.
   */
  function CreateDirectory(fs: FileSystem, dir: Path, name: string): (r: FileSystem)
    ensures !IsDirectory(fs, dir) || Append(dir, name) in fs ==> r == fs
    ensures IsDirectory(fs, dir) && Append(dir, name) !in fs ==>
              && r.Keys == fs.Keys + {Append(dir, name)}
              && IsDirectory(r, Append(dir, name))
              && forall p :: p in fs ==> r[p] == fs[p]
  {
    var target := Append(dir, name);
    if IsDirectory(fs, dir) && target !in fs then fs[target := Dir(Readable(None), true)] else fs
  }

  /**
   * `createFile`: writes the image under the source's last path component in
   * `dir`, replacing a file already there (there is no collision check). The
   * write fails, leaving the filesystem unchanged, when `dir` is not a
   * directory or the target is one.
   */
  function CreateFile(fs: FileSystem, dir: Path, source: Path, length: nat): (r: FileSystem)
    ensures var target := Append(dir, LastComponent(source));
            && (IsDirectory(fs, dir) && !IsDirectory(fs, target) ==>
                  && r.Keys == fs.Keys + {target}
                  && r[target] == File(Readable(Some(length)))
                  && forall p :: p in fs && p != target ==> r[p] == fs[p])
            && (!IsDirectory(fs, dir) || IsDirectory(fs, target) ==> r == fs)
  {
    var target := Append(dir, LastComponent(source));
    if IsDirectory(fs, dir) && !IsDirectory(fs, target) then fs[target := File(Readable(Some(length)))] else fs
  }

  /** `p` is `root` or lies below it. */
  predicate Under(root: Path, p: Path) {
    root <= p
  }

  /**
   * `removeContent`: removes `toDelete` and, for a directory, everything
   * below it; `currentDirectory` plays no part. A missing target is only
   * logged.
   */
  function RemoveContent(fs: FileSystem, currentDirectory: Path, toDelete: Path): (r: FileSystem)
    ensures toDelete !in r
    ensures forall p :: p in r ==> p in fs && r[p] == fs[p]
    ensures forall p :: p in fs && !Under(toDelete, p) ==> p in r
    ensures forall p :: p in fs && Under(toDelete, p) ==> p !in r || toDelete !in fs
    ensures toDelete !in fs ==> r == fs
  {
    if toDelete !in fs then fs else map p | p in fs && !Under(toDelete, p) :: fs[p]
  }

  /** The directory a removal is issued from has no effect on it. */
  lemma RemoveIgnoresCurrentDirectory(fs: FileSystem, a: Path, b: Path, toDelete: Path)
    ensures RemoveContent(fs, a, toDelete) == RemoveContent(fs, b, toDelete)
  {
  }

  /** Folder creation never leaves an item outside an existing directory. */
  lemma CreateDirectoryKeepsWellFormed(fs: FileSystem, dir: Path, name: string)
    requires WellFormed(fs)
    ensures WellFormed(CreateDirectory(fs, dir, name))
  {
  }

  /** Nor does importing a file, which never replaces a directory. */
  lemma CreateFileKeepsWellFormed(fs: FileSystem, dir: Path, source: Path, length: nat)
    requires WellFormed(fs)
    ensures WellFormed(CreateFile(fs, dir, source, length))
  {
  }

  /** Nor does removal, which takes a directory's whole subtree with it. */
  lemma RemoveContentKeepsWellFormed(fs: FileSystem, current: Path, toDelete: Path)
    requires WellFormed(fs)
    ensures WellFormed(RemoveContent(fs, current, toDelete))
  {
  }

  /** A removed item is gone from a later listing of its directory. */
  lemma RemovedNotListed(fs: FileSystem, dir: Path, toDelete: Path, listing: seq<Path>)
    requires IsListingOf(RemoveContent(fs, dir, toDelete), dir, listing)
    ensures toDelete !in listing
  {
    var r := RemoveContent(fs, dir, toDelete);
    if CanList(r, dir) {
      assert toDelete !in VisibleChildren(r, dir);
      assert toDelete !in multiset(listing);
    }
  }
}

=== FILE: keychain.dfy ===
/**
 * The keychain wrapper of the app: the items of the keychain service
 * "file-manager", of which only the key "password" is ever read or written.
 */
module Keychain {
  import opened Options

  const PasswordKey: string := "password"

  /** The keychain service's items, key to stored string. */
  datatype Store = Store(items: map<string, string>)

  /** An empty keychain. */
  const Empty := Store(map[])

  /** What reading the "password" key gives back. */
  function Stored(s: Store): (r: Option<string>)
    ensures r.Some? <==> PasswordKey in s.items
    ensures r.Some? ==> s.items[PasswordKey] == r.value
  {
    if PasswordKey in s.items then Some(s.items[PasswordKey]) else None
  }

  /** `data()`: whether a password is stored. */
  function HasPassword(s: Store): (r: bool)
    ensures r <==> Stored(s).Some?
  {
    PasswordKey in s.items
  }

  /** `setPassword(newPassword:)`: writes the password, replacing any earlier one. */
  function SetPassword(s: Store, newPassword: string): (r: Store)
    ensures Stored(r) == Some(newPassword)
    ensures forall k :: k != PasswordKey ==> (k in r.items <==> k in s.items)
    ensures forall k :: k != PasswordKey && k in s.items ==> r.items[k] == s.items[k]
  {
    Store(s.items[PasswordKey := newPassword])
  }

  /** `checkPassword(input:)`: the input equals the stored password; false when none is stored. */
  function CheckPassword(s: Store, input: string): (r: bool)
    ensures r <==> PasswordKey in s.items && s.items[PasswordKey] == input
    ensures !HasPassword(s) ==> !r
  {
    Stored(s) == Some(input)
  }

  /** `removePassword()`: deletes the password item. */
  function RemovePassword(s: Store): (r: Store)
    ensures !HasPassword(r)
    ensures forall k :: k != PasswordKey ==> (k in r.items <==> k in s.items)
    ensures forall k :: k != PasswordKey && k in s.items ==> r.items[k] == s.items[k]
  {
    Store(s.items - {PasswordKey})
  }

  /** After a password is set, the store has one and accepts exactly that password. */
  lemma SetThenCheck(s: Store, p: string, x: string)
    ensures HasPassword(SetPassword(s, p))
    ensures CheckPassword(SetPassword(s, p), x) <==> x == p
  {
  }

  /** Setting a password overwrites the previous one: the old one no longer checks. */
  lemma SetOverwrites(s: Store, a: string, b: string)
    requires a != b
    ensures !CheckPassword(SetPassword(SetPassword(s, a), b), a)
    ensures CheckPassword(SetPassword(SetPassword(s, a), b), b)
  {
  }

  /** After the password is removed no input checks. */
  lemma RemoveThenCheck(s: Store, x: string)
    ensures !CheckPassword(RemovePassword(s), x)
  {
  }

  /** Removing restores the keychain to how it was before a password was ever set on it. */
  lemma RemoveUndoesSet(s: Store, p: string)
    requires !HasPassword(s)
    ensures RemovePassword(SetPassword(s, p)) == s
  {
  }
}

=== FILE: local_auth.dfy ===
/**
 * Biometric unlock: the mapping from the outcome of the platform's policy
 * evaluation to the message handed to the completion, and the mapping of the
 * platform's biometry kind to the app's own.
 */
module LocalAuth {
  import opened Options

  /** The platform's error codes the app tells apart; any other code is `OtherCode`. */
  datatype ErrorCode =
    | AuthenticationFailed
    | UserCancel
    | UserFallback
    | BiometryNotAvailable
    | BiometryNotEnrolled
    | BiometryLockout
    | OtherCode(raw: int)

  /** What the asynchronous evaluation reports: success, or failure with an optional error. */
  datatype Evaluation = Succeeded | Failed(error: Option<ErrorCode>)

  /** One call of `authorizeIfPossible`: whether evaluation was started, and every completion value delivered. */
  datatype Authorization = Authorization(evaluated: bool, completions: seq<Option<string>>)

  const NotAvailableMessage := "Face ID/Touch ID is not available"
  const DefaultMessage := "Face ID/Touch ID may not be configured"

  /**
   * The message for a failed evaluation: each recognised code has its own
   * message, from which it can be read back; anything else gets the fallback.
   */
  function FailureMessage(error: Option<ErrorCode>): (m: string)
    ensures error.Some? && Recognised(error.value) ==> ErrorOfMessage(m) == error
    ensures error.None? || !Recognised(error.value) ==> m == DefaultMessage
    ensures m != NotAvailableMessage
  {
    match error
    case Some(AuthenticationFailed) => "There was a problem verifying your identity."
    case Some(UserCancel) => "You pressed cancel."
    case Some(UserFallback) => "You pressed password."
    case Some(BiometryNotAvailable) => "Face ID/Touch ID is not available."
    case Some(BiometryNotEnrolled) => "Face ID/Touch ID is not set up."
    case Some(BiometryLockout) => "Face ID/Touch ID is locked."
    case _ => DefaultMessage
  }

  predicate Recognised(code: ErrorCode) {
    !code.OtherCode?
  }

  /**
   * `authorizeIfPossible`: when the policy cannot be evaluated the completion
   * gets the "not available" message and no evaluation starts; otherwise the
   * evaluation's outcome decides. The completion runs exactly once either way.
   */
  function AuthorizeIfPossible(canEvaluate: bool, evaluation: Evaluation): (r: Authorization)
    ensures |r.completions| == 1
    ensures r.evaluated == canEvaluate
    ensures !canEvaluate ==> r.completions[0] == Some(NotAvailableMessage)
    ensures canEvaluate ==> (r.completions[0] == None <==> evaluation.Succeeded?)
    ensures canEvaluate && evaluation.Failed? ==> r.completions[0] == Some(FailureMessage(evaluation.error))
    ensures canEvaluate && evaluation.Failed? && (evaluation.error.None? || !Recognised(evaluation.error.value)) ==>
              r.completions[0] == Some(DefaultMessage)
  {
    if !canEvaluate then
      Authorization(false, [Some(NotAvailableMessage)])
    else
      match evaluation
      case Succeeded => Authorization(true, [None])
      case Failed(error) => Authorization(true, [Some(FailureMessage(error))])
  }

  /** Reads a failure message back as the error it reports; the inverse of `FailureMessage` on recognised codes. */
  function ErrorOfMessage(message: string): (r: Option<ErrorCode>)
    ensures r.Some? ==> Recognised(r.value)
  {
    if message == "There was a problem verifying your identity." then Some(AuthenticationFailed)
    else if message == "You pressed cancel." then Some(UserCancel)
    else if message == "You pressed password." then Some(UserFallback)
    else if message == "Face ID/Touch ID is not available." then Some(BiometryNotAvailable)
    else if message == "Face ID/Touch ID is not set up." then Some(BiometryNotEnrolled)
    else if message == "Face ID/Touch ID is locked." then Some(BiometryLockout)
    else None
  }

  /** The platform's biometry kinds, including kinds this app does not know of. */
  datatype PlatformBiometry = PlatformNone | PlatformTouchID | PlatformFaceID | PlatformUnknown(raw: int)

  datatype BiometricType = NoBiometry | TouchID | FaceID

  /** `biometricType()`: known kinds map to themselves, unknown ones to none. */
  function BiometricTypeOf(kind: PlatformBiometry): (r: BiometricType)
    ensures r == TouchID <==> kind == PlatformTouchID
    ensures r == FaceID <==> kind == PlatformFaceID
    ensures r == NoBiometry <==> kind.PlatformNone? || kind.PlatformUnknown?
  {
    match kind
    case PlatformNone => NoBiometry
    case PlatformTouchID => TouchID
    case PlatformFaceID => FaceID
    case PlatformUnknown(_) => NoBiometry
  }

  /** The platform kind each of the app's kinds stands for. */
  function ToPlatform(t: BiometricType): (kind: PlatformBiometry)
    ensures !kind.PlatformUnknown?
  {
    match t
    case NoBiometry => PlatformNone
    case TouchID => PlatformTouchID
    case FaceID => PlatformFaceID
  }

  /** `biometricType()` loses nothing on the kinds the app knows. */
  lemma BiometricTypeRoundTrip(t: BiometricType, kind: PlatformBiometry)
    ensures BiometricTypeOf(ToPlatform(t)) == t
    ensures !kind.PlatformUnknown? ==> ToPlatform(BiometricTypeOf(kind)) == kind
  {
  }
}

=== FILE: name_order.dfy ===
/**
 * The order Swift's `<` puts on the file names of a listing, modelled as the
 * strict lexicographic order on strings with characters compared by code point.
 */
module NameOrder {

  /** `a` sorts strictly before `b`. */
  function Less(a: string, b: string): (r: bool)
    // Nothing sorts before the empty name, and the empty name before everything else.
    ensures |b| == 0 ==> !r
    ensures |a| == 0 ==> (r <==> |b| > 0)
    // A proper prefix sorts first.
    ensures |a| < |b| && a == b[..|a|] ==> r
    // The first characters never go the wrong way.
    ensures r && |a| > 0 ==> a[0] <= b[0]
    decreases |a|
  {
    |b| > 0 && (|a| == 0 || a[0] < b[0] ||
      (a[0] == b[0] && (assert |a| < |b| && a == b[..|a|] ==> a[1..] == b[1..][..|a| - 1]; Less(a[1..], b[1..]))))
  }

  lemma {:induction false} LessIrreflexive(a: string)
    ensures !Less(a, a)
    decreases |a|
  {
    if |a| > 0 {
      LessIrreflexive(a[1..]);
    }
  }

  lemma {:induction false} LessTransitive(a: string, b: string, c: string)
    requires Less(a, b) && Less(b, c)
    ensures Less(a, c)
    decreases |a|
  {
    if |a| > 0 && a[0] == b[0] && b[0] == c[0] {
      LessTransitive(a[1..], b[1..], c[1..]);
    }
  }

  /** Any two different names are ordered one way or the other. */
  lemma {:induction false} LessTotal(a: string, b: string)
    ensures a == b || Less(a, b) || Less(b, a)
    decreases |a|
  {
    if |a| > 0 && |b| > 0 && a[0] == b[0] {
      LessTotal(a[1..], b[1..]);
      if a[1..] == b[1..] {
        assert a == [a[0]] + a[1..] && b == [b[0]] + b[1..];
      }
    }
  }

  lemma LessAsymmetric(a: string, b: string)
    requires Less(a, b)
    ensures !Less(b, a)
  {
    if Less(b, a) {
      LessTransitive(a, b, a);
      LessIrreflexive(a);
    }
  }

  /** If `a` sorts before `c`, then any `b` sorts after `a` or before `c`. */
  lemma LessSplit(a: string, b: string, c: string)
    requires Less(a, c)
    ensures Less(a, b) || Less(b, c)
  {
    LessTotal(a, b);
    if !Less(a, b) && a != b {
      LessTransitive(b, a, c);
    }
  }
}

=== FILE: options.dfy ===
/** Values that may be absent, as Swift's `T?`. */
module Options {

  datatype Option<T> = Some(value: T) | None
}

=== FILE: password_gate.dfy ===
/**
 * The password screen: it creates a password (entry, then confirmation) when
 * the keychain holds none, and signs in against the stored one otherwise.
 * Its only lasting output is the process-wide "logged in" flag.
 */
module PasswordGate {
  import opened Options
  import Keychain

  /** Minimum length of a new password. */
  const MinLength := 4

  datatype Mode = CreatePassword | SignIn

  /**
   * The state one tap acts on: the keychain, the first entry awaiting
   * confirmation ("" while there is none), the logged-in flag and the text
   * field's contents (`nil` is possible for a `UITextField`).
   */
  datatype Gate = Gate(keychain: Keychain.Store, pending: string, loggedIn: bool, field: Option<string>)

  /** What the screen shows after a tap. */
  datatype Response =
    | Rejected(title: string, message: string)  // an alert; the field is cleared
    | ConfirmPrompt                              // first entry taken, asking for confirmation
    | Dismissed                                  // logged in, the screen goes away
    | Ignored                                    // nothing happens

  datatype Tapped = Tapped(gate: Gate, response: Response)

  const InvalidAlert := Rejected("Invalid Password", "Password should be at least 4 characters long")
  const MismatchAlert := Rejected("Attention", "Passwords didn't match")
  const WrongAlert := Rejected("Attention", "Password is wrong")

  /** A freshly presented password screen: nothing pending, empty field. */
  function Fresh(keychain: Keychain.Store, loggedIn: bool): (g: Gate)
    ensures g.pending == "" && g.field == Some("")
    ensures g.keychain == keychain && g.loggedIn == loggedIn
  {
    Gate(keychain, "", loggedIn, Some(""))
  }

  /** The mode is recomputed from the keychain every time it is asked for. */
  function ModeOf(keychain: Keychain.Store): (m: Mode)
    ensures m == SignIn <==> Keychain.Stored(keychain).Some?
  {
    if Keychain.HasPassword(keychain) then SignIn else CreatePassword
  }

  /** The field text is an acceptable new password. */
  predicate LongEnough(field: Option<string>) {
    field.Some? && |field.value| >= MinLength
  }

  /** Typing replaces the field's text. */
  function Type(g: Gate, text: Option<string>): Gate {
    g.(field := text)
  }

  /** One tap on the login button. */
  function Tap(g: Gate): (r: Tapped)
    // The mode in force is the one derived from the keychain at the time of the tap.
    ensures ModeOf(g.keychain) == CreatePassword && !LongEnough(g.field) ==>
              r == Tapped(g.(field := Some("")), InvalidAlert)
    ensures ModeOf(g.keychain) == CreatePassword && LongEnough(g.field) && g.pending == "" ==>
              r.gate == g.(pending := g.field.value, field := Some("")) && r.response == ConfirmPrompt
    ensures ModeOf(g.keychain) == CreatePassword && LongEnough(g.field) && g.pending != "" ==>
              (r.response == Dismissed <==> g.field.value == g.pending)
    ensures ModeOf(g.keychain) == CreatePassword && LongEnough(g.field) && g.pending != "" && g.field == Some(g.pending) ==>
              Keychain.CheckPassword(r.gate.keychain, g.pending) && r.gate.loggedIn
    // A match changes only the keychain's password and the flag; pending entry and field stay.
    ensures ModeOf(g.keychain) == CreatePassword && LongEnough(g.field) && g.pending != "" && g.field == Some(g.pending) ==>
              r == Tapped(g.(keychain := Keychain.SetPassword(g.keychain, g.pending), loggedIn := true), Dismissed)
    ensures ModeOf(g.keychain) == CreatePassword && LongEnough(g.field) && g.pending != "" && g.field.value != g.pending ==>
              r == Tapped(g.(field := Some("")), MismatchAlert)
    // Sign-in compares with the stored password; no length check applies.
    ensures ModeOf(g.keychain) == SignIn ==> r.gate.keychain == g.keychain && r.gate.pending == g.pending
    ensures ModeOf(g.keychain) == SignIn && g.field.Some? ==>
              (r.response == Dismissed <==> Keychain.Stored(g.keychain) == g.field)
    ensures ModeOf(g.keychain) == SignIn && g.field.Some? && !Keychain.CheckPassword(g.keychain, g.field.value) ==>
              r == Tapped(g.(field := Some("")), WrongAlert)
    ensures ModeOf(g.keychain) == SignIn && g.field.Some? && Keychain.CheckPassword(g.keychain, g.field.value) ==>
              r == Tapped(g.(loggedIn := true), Dismissed)
    ensures ModeOf(g.keychain) == SignIn && g.field.None? ==> r == Tapped(g, Ignored)
    // The flag is raised exactly when the screen is dismissed, and never lowered.
    ensures r.gate.loggedIn <==> g.loggedIn || r.response == Dismissed
  {
    match ModeOf(g.keychain)
    case CreatePassword =>
      if !LongEnough(g.field) then
        Tapped(g.(field := Some("")), InvalidAlert)
      else
        var input := g.field.value;
        if g.pending == "" then
          Tapped(g.(pending := input, field := Some("")), ConfirmPrompt)
        else if input == g.pending then
          Tapped(g.(keychain := Keychain.SetPassword(g.keychain, input), loggedIn := true), Dismissed)
        else
          Tapped(g.(field := Some("")), MismatchAlert)
    case SignIn =>
      if g.field.None? then
        Tapped(g, Ignored)
      else if Keychain.CheckPassword(g.keychain, g.field.value) then
        Tapped(g.(loggedIn := true), Dismissed)
      else
        Tapped(g.(field := Some("")), WrongAlert)
  }

  /** Typing each of `inputs` in turn and tapping after each. */
  function Run(g: Gate, inputs: seq<Option<string>>): Gate
    decreases |inputs|
  {
    if inputs == [] then g else Run(Tap(Type(g, inputs[0])).gate, inputs[1..])
  }

  /**
   * Dismissal is sound: a tap that logs in leaves the keychain holding exactly
   * the text that was typed.
   */
  lemma DismissedMeansStored(g: Gate)
    requires Tap(g).response == Dismissed
    ensures g.field.Some? && Keychain.Stored(Tap(g).gate.keychain) == g.field
  {
  }

  /** Every password the gate ever stores is at least `MinLength` long. */
  ghost predicate StrongStore(g: Gate) {
    && (Keychain.HasPassword(g.keychain) ==> |Keychain.Stored(g.keychain).value| >= MinLength)
    && (g.pending == "" || |g.pending| >= MinLength)
  }

  lemma {:induction false} RunKeepsStrongStore(g: Gate, inputs: seq<Option<string>>)
    requires StrongStore(g)
    ensures StrongStore(Run(g, inputs))
    decreases |inputs|
  {
    if inputs != [] {
      var next := Tap(Type(g, inputs[0])).gate;
      assert StrongStore(next);
      RunKeepsStrongStore(next, inputs[1..]);
    }
  }

  /**
   * In sign-in mode, no sequence of wrong entries logs in, and the keychain is
   * never touched.
   */
  lemma {:induction false} WrongEntriesNeverSignIn(g: Gate, inputs: seq<Option<string>>)
    requires ModeOf(g.keychain) == SignIn && !g.loggedIn
    requires forall i :: 0 <= i < |inputs| ==> inputs[i] != Keychain.Stored(g.keychain)
    ensures !Run(g, inputs).loggedIn
    ensures Run(g, inputs).keychain == g.keychain
    decreases |inputs|
  {
    if inputs != [] {
      var next := Tap(Type(g, inputs[0])).gate;
      assert !next.loggedIn && next.keychain == g.keychain;
      WrongEntriesNeverSignIn(next, inputs[1..]);
    }
  }

  /**
   * Entering the same acceptable password twice on a fresh screen over an
   * empty keychain stores it and logs in; a later fresh screen is in sign-in
   * mode and accepts exactly that password.
   */
  lemma CreateThenSignIn(keychain: Keychain.Store, p: string, x: string)
    requires !Keychain.HasPassword(keychain) && |p| >= MinLength
    ensures var created := Run(Fresh(keychain, false), [Some(p), Some(p)]);
            && created.loggedIn
            && Keychain.Stored(created.keychain) == Some(p)
            && ModeOf(created.keychain) == SignIn
            && (Tap(Type(Fresh(created.keychain, false), Some(x))).gate.loggedIn <==> x == p)
  {
    var first := Tap(Type(Fresh(keychain, false), Some(p))).gate;
    assert first.pending == p && !first.loggedIn;
    var second := Tap(Type(first, Some(p))).gate;
    assert Run(Fresh(keychain, false), [Some(p), Some(p)]) == Run(second, []);
  }

  /** The walk-through of a first launch: too short, first entry, then match or mismatch. */
  lemma FirstLaunchScenario()
    ensures var g := Fresh(Keychain.Empty, false);
            && Tap(Type(g, Some("abc"))) == Tapped(g, InvalidAlert)
            && Tap(Type(g, Some("abcd"))).gate.pending == "abcd"
            && var waiting := Tap(Type(g, Some("abcd"))).gate;
               && Tap(Type(waiting, Some("abcd"))).gate.loggedIn
               && Tap(Type(waiting, Some("wxyz"))) == Tapped(waiting, MismatchAlert)
               && Tap(Type(waiting, Some("ab"))) == Tapped(waiting, InvalidAlert)
  {
  }

  /** The walk-through of a later launch with "abcd" stored. */
  lemma SignInScenario()
    ensures var g := Fresh(Keychain.SetPassword(Keychain.Empty, "abcd"), false);
            && Tap(Type(g, Some("abcd"))).response == Dismissed
            && Tap(Type(g, Some("xxxx"))) == Tapped(g, WrongAlert)
            && Tap(Type(g, Some("abc"))) == Tapped(g, WrongAlert)
  {
  }
}

=== FILE: preferences.dfy ===
/** The two user defaults the app reads: "sorting" and "fileSize". */
module Preferences {

  const SortingKey: string := "sorting"
  const FileSizeKey: string := "fileSize"

  datatype Defaults = Defaults(sorting: bool, fileSize: bool)

  /** `bool(forKey:)`: the stored flag, false for a key never written. */
  function BoolForKey(d: Defaults, key: string): (r: bool)
    ensures key == SortingKey ==> r == d.sorting
    ensures key == FileSizeKey ==> r == d.fileSize
    ensures key != SortingKey && key != FileSizeKey ==> !r
  {
    if key == SortingKey then d.sorting else if key == FileSizeKey then d.fileSize else false
  }

}

=== FILE: settings.dfy ===
/**
 * The settings screen: a table of sections whose rows are either switches
 * showing a user default or static rows that run a handler when selected.
 */
module Settings {
  import opened Options
  import Keychain
  import PasswordGate
  import Preferences

  /** The handlers static rows can carry; the app has one. */
  datatype Handler = ChangePassword

  /** The cell actions a switch is wired to. */
  datatype SwitchAction = SortingSwitchChanged | SizeSwitchChanged

  datatype Row =
    | StaticRow(title: string, icon: string, handler: Handler)
    | SwitchRow(title: string, icon: string, action: SwitchAction, isOn: bool)

  datatype Section = Section(title: string, options: seq<Row>)

  /** The user default each switch action stands for. */
  function KeyOf(action: SwitchAction): string {
    match action
    case SortingSwitchChanged => Preferences.SortingKey
    case SizeSwitchChanged => Preferences.FileSizeKey
  }

  /**
   * `configure`: appends the "Appearance" section with the two switches,
   * each showing its default as it is now, then the "Security" section with
   * the "Change Password" row.
   */
  function Configure(models: seq<Section>, d: Preferences.Defaults): (r: seq<Section>)
    ensures |r| == |models| + 2 && r[..|models|] == models
    ensures r[|models|].title == "Appearance" && |r[|models|].options| == 2
    ensures forall row :: row in r[|models|].options ==>
              row.SwitchRow? && row.isOn == Preferences.BoolForKey(d, KeyOf(row.action))
    ensures r[|models|].options[0].action != r[|models|].options[1].action
    ensures r[|models| + 1] == Section("Security", [StaticRow("Change Password", "key", ChangePassword)])
  {
    models + [
      Section("Appearance", [
        SwitchRow("Sorting (A-Z)", "line.3.horizontal.decrease.circle", SortingSwitchChanged,
                  Preferences.BoolForKey(d, Preferences.SortingKey)),
        SwitchRow("Show File Size", "doc.badge.ellipsis", SizeSwitchChanged,
                  Preferences.BoolForKey(d, Preferences.FileSizeKey))
      ]),
      Section("Security", [StaticRow("Change Password", "key", ChangePassword)])
    ]
  }

  /** The number of sections and, per section, of rows the table shows. */
  function TableShape(models: seq<Section>): (r: seq<nat>)
    ensures |r| == |models|
    ensures forall i :: 0 <= i < |r| ==> r[i] == |models[i].options|
  {
    seq(|models|, i requires 0 <= i < |models| => |models[i].options|)
  }

  /** What selecting a row leaves behind: the keychain, the handlers run, and a password screen if one is presented. */
  datatype Selected = Selected(keychain: Keychain.Store, ran: seq<Handler>, presented: Option<PasswordGate.Gate>)

  /** Running a handler: "Change Password" removes the password and presents a fresh password screen. */
  function RunHandler(h: Handler, keychain: Keychain.Store, isLoggedIn: bool): (r: Selected)
    ensures r.ran == [h]
    ensures h == ChangePassword ==>
              && r.keychain == Keychain.RemovePassword(keychain)
              && r.presented == Some(PasswordGate.Fresh(r.keychain, isLoggedIn))
              && PasswordGate.ModeOf(r.keychain) == PasswordGate.CreatePassword
  {
    match h
    case ChangePassword =>
      var removed := Keychain.RemovePassword(keychain);
      Selected(removed, [h], Some(PasswordGate.Fresh(removed, isLoggedIn)))
  }

  /** `didSelectRowAt`: a static row runs its handler once; a switch row does nothing. */
  function DidSelectRow(models: seq<Section>, section: nat, row: nat, keychain: Keychain.Store, isLoggedIn: bool)
    : (r: Selected)
    requires section < |models| && row < |models[section].options|
    ensures models[section].options[row].SwitchRow? ==> r == Selected(keychain, [], None)
    ensures models[section].options[row].StaticRow? ==>
              r == RunHandler(models[section].options[row].handler, keychain, isLoggedIn)
  {
    match models[section].options[row]
    case StaticRow(_, _, handler) => RunHandler(handler, keychain, isLoggedIn)
    case SwitchRow(_, _, _, _) => Selected(keychain, [], None)
  }

  /** The screen as loaded: two sections of two and one rows. */
  lemma ConfiguredShape(d: Preferences.Defaults)
    ensures TableShape(Configure([], d)) == [2, 1]
  {
  }

  /**
   * "Change Password" sends the app back to creating a password: the previous one
   * no longer signs in, and entering a new one twice stores it.
   */
  lemma {:induction false} ChangePasswordRestartsCreation(d: Preferences.Defaults, keychain: Keychain.Store, previous: string, p: string)
    requires Keychain.Stored(keychain) == Some(previous) && |p| >= PasswordGate.MinLength
    ensures var selected := DidSelectRow(Configure([], d), 1, 0, keychain, true);
            && selected.presented.Some?
            && PasswordGate.ModeOf(selected.keychain) == PasswordGate.CreatePassword
            && !Keychain.CheckPassword(selected.keychain, previous)
            && Keychain.Stored(PasswordGate.Run(selected.presented.value, [Some(p), Some(p)]).keychain) == Some(p)
  {
    var selected := DidSelectRow(Configure([], d), 1, 0, keychain, true);
    assert selected.presented == Some(PasswordGate.Fresh(selected.keychain, true));
    PasswordGate.CreateThenSignIn(selected.keychain, p, p);
    var first := PasswordGate.Tap(PasswordGate.Type(selected.presented.value, Some(p))).gate;
    var second := PasswordGate.Tap(PasswordGate.Type(first, Some(p))).gate;
    assert PasswordGate.Run(selected.presented.value, [Some(p), Some(p)]) == PasswordGate.Run(second, []);
  }
}
